=== FILE: README.md ===
# Sliding-window rate limiter with an escalating penalty

A Dafny model of the rate limiter behind the `/api/ratelimiter` route of the
rate-limit project. For each client the limiter keeps a Redis sorted set
under a key derived from the client's address. Each entry is a UNIX second,
stored as both member and score. One check does the following:

- It counts the entries in the closed window `[now - 60, now]`.
- If fewer than `MAX_REQUESTS` are there, it admits the request, records
  `now` and reports `remaining = MAX_REQUESTS - count` with `reset = now`.
- Otherwise it reads the highest entry. If that entry is `now` or later, a
  penalty is active: it rejects, writes nothing and reports that entry as
  `reset`.
- If the highest entry is in the past, it records a new penalty entry at
  that entry plus `DELAY`, rejects, and reports the new entry as `reset`.

The route answers 429 when `remaining` is 0 and 200 otherwise. On 200 the
body carries `remaining - 1`.

Files:

- `scores.dfy` (`Scores`): one key's sorted set as a `set<int>`, with the
  three store operations. Range count (ZCOUNT) and top score (ZREVRANGE 0 0)
  are loops checked against reference definitions. Add (ZADD) is also here.
- `keyed.dfy` (`Keyed`): the store as a map from key to entries. A missing
  key reads as empty. Only the written key changes.
- `ratelimiter.dfy` (`RateLimiter`): configuration, verdict and outcome
  types, the check as a specification (`Check`) and as the source performs it
  (`CheckRatelimit`), the check against the whole store, replays of call
  sequences, and the properties.
- `counted.dfy` (`Counted`): the same decision over a log in which each
  admission is its own entry. This is the corrected behaviour under
  "Findings", with the sliding-window bound proved.
- `handler.dfy` (`Handler`): the route's status, header and body choice for
  either store.
- `optional.dfy` (`Optional`): the `Option` type for the top-score query.

Points of the source's behaviour that the model keeps:

- A key's entries form a set, not a multiset. Two admissions in the same
  second are one entry, because `zadd(key, ts, ts)` (line 29) uses the
  second as the member.
- A new penalty is the highest entry plus `DELAY` (line 47). With limit 2
  and delay 60, calls at 0 and 10 are admitted, and a call at 20 is rejected
  with reset 70 (`RateLimiter.PenaltyScenario`).
- The penalty entry is read only once the window is exhausted (line 36 is
  reached only when line 28 fails). So a request is admitted before the
  penalty second when the window has drained below the limit. In the same
  run, a call at 65 is admitted although the penalty entry is 70.
- With an integer limit, a key with no entries and an exhausted window can
  only occur with a limit of 0 or less. (With `MAX_REQUESTS` unset or not a
  number the limit is NaN, line 18, and every fresh key reaches this path;
  NaN settings are not modelled.) There the source computes `Number(undefined) + DELAY`
  (line 47), which is NaN. Redis refuses NaN as a score, so the write
  fails, the route throws, and the model returns `StoreError`. With a
  positive limit this path cannot be reached
  (`RateLimiter.TopExistsWhenExhausted`).

## Model

| member | source | states |
|---|---|---|
| Scores.CountInRange | src/pages/api/ratelimiter.ts:23-27 | the count is the number of entries in the closed range `[lo, hi]`, with both ends included |
| Scores.MaxScore | src/pages/api/ratelimiter.ts:36-39 | the query is empty exactly when the key holds no entries; otherwise it gives the highest entry |
| Scores.Add | src/pages/api/ratelimiter.ts:29 | writing a second as member and score adds that entry; an entry already present leaves the set unchanged |
| RateLimiter.Check | src/pages/api/ratelimiter.ts:20-54 | the limit is always `MAX_REQUESTS`; `remaining` is never negative and is positive exactly when the window holds fewer than the limit; an admission reports at most the limit and `reset = now`; no entry is removed; at most one entry is added, and it is `reset`; `reset` is an entry afterwards; the store error occurs exactly on an empty key with a limit of 0 or less |
| RateLimiter.CheckRatelimit | src/pages/api/ratelimiter.ts:20-54 | under-limit: adds `now`, returns `(Max, Max - count, now)`; active penalty (top ≥ now): set unchanged, `(Max, 0, top)`; new penalty (top < now): adds `top + DELAY`, returns `(Max, 0, top + DELAY)`; exhausted with no entries: store error |
| RateLimiter.TopExistsWhenExhausted | src/pages/api/ratelimiter.ts:28-47 | with a positive limit, an exhausted window means the key holds an entry; the top entry is at least `now - 60`, and the NaN path is unreachable |
| RateLimiter.PenaltyHolds | src/pages/api/ratelimiter.ts:36-53 | after a rejection, a call at any second up to `reset` gets the same verdict and writes nothing while the window stays exhausted (for a new penalty, when `DELAY` is not negative) |
| RateLimiter.RejectionRepeats | src/pages/api/ratelimiter.ts:36-53 | with a positive limit and `DELAY ≥ 60`, repeating a rejected call at the same second returns the same verdict and the same entries |
| RateLimiter.CheckKey | src/pages/api/ratelimiter.ts:21-53 | only the caller's key is read or written; afterwards it holds exactly the check's resulting set, so it loses nothing and gains at most one entry, which is `reset`; `reset` is one of its entries; a store error writes nothing |
| RateLimiter.SameSecondBurst | src/pages/api/ratelimiter.ts:28-34 | with a limit of at least 2, every call of a same-second burst from an empty key is admitted, and the key ends up holding at most that one second |
| RateLimiter.SameSecondLimitOne | src/pages/api/ratelimiter.ts:36-46 | with a limit of 1, a repeat in the second of an admission is rejected with `reset = now` and no write, because that second is the top entry |
| RateLimiter.BurstExceedsLimit | src/pages/api/ratelimiter.ts:23-34 | with a limit of at least 2, a burst of `Max + 1` calls in one second is admitted in full, so a sixty-second window holds more admissions than the limit |
| RateLimiter.PenaltyScenario | src/pages/api/ratelimiter.ts:20-54 | with limit 2 and delay 60: calls at 0 and 10 are admitted; 20 is rejected with reset 70; 50 is rejected with reset 70 and no write; 65 is admitted |
| Counted.CheckLog | src/pages/api/ratelimiter.ts:20-54 | the corrected check has the same invariants, counting repeats: an admission appends `now`; any other write appends `reset` only; `reset` is an entry afterwards |
| Counted.CheckKey | src/pages/api/ratelimiter.ts:21-53 | the corrected check against the whole store changes only the caller's key |
| Counted.ReplayLogsAdmissions | src/pages/api/ratelimiter.ts:28-34 | after any call sequence, the log counts, in every range, at least what it held before plus each admission made in that range |
| Counted.LastAdmittedBounded | src/pages/api/ratelimiter.ts:28-34 | an admitted call leaves at most `Max` admissions in the window ending at its second |
| Counted.WindowBounded | src/pages/api/ratelimiter.ts:23-34 | for calls in time order, no window `[start, start + 60]` holds more admitted calls than the limit |
| Handler.Handle | src/pages/api/ratelimiter.ts:60-83 | with a positive limit the route always answers. The status is 429 exactly when the window is exhausted, and otherwise 200. On 200 the body's remaining is `Max - count - 1`, between 0 and `Max - 1`. The limit header and the 200 body's limit are `Max`. On 200 the remaining header is one more than the body's, and the reset header is `now`. On 429 the remaining header is 0, and the body carries the fixed message, `DELAY` and the reset header's second. Both bodies carry the caller's address. The caller's key loses no entry; the only entry it can gain is the reset header's second, which on 200 is `now`. On 429 the key held an entry before, and the reset header is the top entry when that is not in the past, else the top entry plus `DELAY`; with `DELAY ≥ 0` it is the key's top entry afterwards. Other keys are untouched |
| Handler.HandleCounted | src/pages/api/ratelimiter.ts:60-83 | over the counted log: with a positive limit the route always answers. The status is 429 exactly when the window holds the limit or more, and otherwise 200. On 200 the body's remaining is `Max - count - 1`, between 0 and `Max - 1`. The limit header and the 200 body's limit are `Max`. On 200 the remaining header is one more than the body's, and the reset header is `now`. On 429 the remaining header is 0, and the body carries the fixed message, `DELAY` and the reset header's second. Both bodies carry the caller's address. The caller's log afterwards is the log before, or the log before followed by the reset header's second, which on 200 is `now`. On 429 the log held an entry before, and the reset header is its top entry when that is not in the past, else the top entry plus `DELAY`. Other keys are untouched |

## Findings

| source | as written | input that shows it | evidently intended | confidence | as-written member | corrected member |
|---|---|---|---|---|---|---|
| src/pages/api/ratelimiter.ts:29 | each admission is stored with its second as the member, so admissions in the same second are one entry and count once | limit 2, an empty key, three requests in second 100: all three are admitted | every admitted request counts, and no sixty-second window admits more than the limit | high, derived from the sorted-set semantics; not executed | RateLimiter.BurstExceedsLimit | Counted.WindowBounded |

## Left out

- Redis connection and the startup check on the connection string (lines 3, 5-6): this is I/O. Each key's entries are values in the model.
- Key derivation by SHA-256 and base64 (line 21): a foreign library call. The handler takes the digest as a function parameter.
- Configuration from the environment (lines 18-19): `MAX_REQUESTS` and `DELAY` are integer parameters. The `?? 15` and `?? 60` fallbacks never apply, because `Number` returns NaN, not null. NaN and fractional settings are not modelled.
- Reading the clock (line 22): the current second is a parameter `now`.
- Client address extraction from `x-real-ip` or the socket (line 59): the address is a parameter.
- Response output (lines 62-83): the status, header values and body fields are modelled. Sending them and formatting the reset time with `toTimeString` are not. The reset is kept as a number of seconds.
- The answer when the route throws: Next.js decides it. The model ends such a request at `Failed`.
- Failing store calls: ZCOUNT, ZREVRANGE and ZADD are assumed to succeed (no network error or time-out), except for the refused NaN write. A write whose reply is lost is not modelled either.
- Redis scores are doubles: the model uses unbounded integers. These agree for every second up to 2^53.
- Concurrent calls for the same key: the race between reading the count and writing an entry is not modelled. Each check is atomic.
- RateLimiter.RejectionRepeats: requires a positive limit and `DELAY ≥ 60`. Otherwise a new penalty can fall before `now`, and a repeated call then adds another penalty entry.

=== FILE: counted.dfy ===
/**
 The limiter with every admission counted. The source writes each admission
 as a sorted-set member equal to its second, so admissions within one second
 collapse into one entry, and once the limit is at least two a same-second
 burst is never limited. Here the entries of a key are a log in which every
 admission and every penalty is an entry of its own (repeats kept);
 everything else is decided as in the source.
 */
module Counted {
  import opened RateLimiter
  import Keyed

  /** How many entries of the log lie in the closed range [lo, hi]. */
  function CountLog(log: seq<int>, lo: int, hi: int): (n: nat)
    ensures n <= |log|
    decreases |log|
  {
    if log == [] then 0
    else
      CountLog(log[..|log| - 1], lo, hi) + (if lo <= log[|log| - 1] <= hi then 1 else 0)
  }

  /** Appending an entry counts it exactly when it lies in the range. */
  lemma CountLogAppend(log: seq<int>, x: int, lo: int, hi: int)
    ensures CountLog(log + [x], lo, hi) == CountLog(log, lo, hi) + (if lo <= x <= hi then 1 else 0)
  {
    assert (log + [x])[..|log|] == log;
  }

  /** The highest entry of a non-empty log. */
  function LogTop(log: seq<int>): (t: int)
    requires log != []
    ensures t in log
    ensures forall i :: 0 <= i < |log| ==> log[i] <= t
    decreases |log|
  {
    if |log| == 1 then log[0]
    else
      var t' := LogTop(log[..|log| - 1]);
      if t' < log[|log| - 1] then log[|log| - 1] else t'
  }

  /** One check against the log of the caller's key at second `now`. */
  function CheckLog(log: seq<int>, now: int, cfg: Config): (r: Outcome<seq<int>>)
    ensures r.StoreError? <==> log == [] && cfg.maxRequests <= 0
    ensures r.Decided? ==> r.verdict.limit == cfg.maxRequests && r.verdict.remaining >= 0
    ensures r.Decided? ==>
              (r.Admitted() <==> CountLog(log, now - WindowSeconds, now) < cfg.maxRequests)
    ensures r.Admitted() ==> r.verdict.remaining <= cfg.maxRequests && r.after == log + [now]
    ensures r.Decided? ==> r.after == log || r.after == log + [r.verdict.reset]
    ensures r.Decided? ==> r.verdict.reset in r.after
  {
    var n := CountLog(log, now - WindowSeconds, now);
    if n < cfg.maxRequests then
      Decided(Verdict(cfg.maxRequests, cfg.maxRequests - n, now), log + [now])
    else if log != [] && LogTop(log) >= now then
      Decided(Verdict(cfg.maxRequests, 0, LogTop(log)), log)
    else if log != [] then
      var penalty := LogTop(log) + cfg.delay;
      Decided(Verdict(cfg.maxRequests, 0, penalty), log + [penalty])
    else
      StoreError
  }

  /** One check against the whole store; only the caller's key changes. */
  function CheckKey<K>(st: map<K, seq<int>>, key: K, now: int, cfg: Config)
    : (res: (Outcome<seq<int>>, map<K, seq<int>>))
    ensures res.0 == CheckLog(Keyed.Lookup(st, key, []), now, cfg)
    ensures res.1.Keys - {key} == st.Keys - {key}
    ensures forall k :: k in st && k != key ==> k in res.1 && res.1[k] == st[k]
    ensures res.0.Decided? ==> Keyed.Lookup(res.1, key, []) == res.0.after
    ensures res.0.StoreError? ==> res.1 == st
  {
    var r := CheckLog(Keyed.Lookup(st, key, []), now, cfg);
    if r.Decided? then (r, Keyed.Commit(st, key, [], r.after)) else (r, st)
  }

  /** Calls at the seconds `times`, in order, against the log `log`: which
      were admitted, and the log afterwards. */
  function Replay(log: seq<int>, times: seq<int>, cfg: Config): (res: (seq<bool>, seq<int>))
    ensures |res.0| == |times|
    decreases |times|
  {
    if times == [] then ([], log)
    else
      var prev := Replay(log, times[..|times| - 1], cfg);
      var r := CheckLog(prev.1, times[|times| - 1], cfg);
      (prev.0 + [r.Admitted()], if r.Decided? then r.after else prev.1)
  }

  /** Every admission of a run stays in the log: the log counts at least the
      admissions of the run in any range, on top of what it counted before. */
  lemma {:induction false} ReplayLogsAdmissions(log: seq<int>, times: seq<int>, cfg: Config, lo: int, hi: int)
    ensures CountLog(Replay(log, times, cfg).1, lo, hi)
              >= CountLog(log, lo, hi) + AdmittedIn(times, Replay(log, times, cfg).0, lo, hi)
  {
    if times != [] {
      var n := |times|;
      var prev := Replay(log, times[..n - 1], cfg);
      var r := CheckLog(prev.1, times[n - 1], cfg);
      ReplayLogsAdmissions(log, times[..n - 1], cfg, lo, hi);
      assert Replay(log, times, cfg).0[..n - 1] == prev.0;
      if r.Decided? && r.after != prev.1 {
        CountLogAppend(prev.1, r.verdict.reset, lo, hi);
      }
    }
  }

  /** Narrowing the counted range to one that still holds every call of
      the wider range changes nothing. */
  lemma {:induction false} AdmittedInWithin(times: seq<int>, admitted: seq<bool>, lo: int, hi: int, lo': int, hi': int)
    requires |times| == |admitted|
    requires forall i :: 0 <= i < |times| && lo <= times[i] <= hi ==> lo' <= times[i] <= hi'
    ensures AdmittedIn(times, admitted, lo, hi) <= AdmittedIn(times, admitted, lo', hi')
  {
    if times != [] {
      var n := |times|;
      AdmittedInWithin(times[..n - 1], admitted[..n - 1], lo, hi, lo', hi');
    }
  }

  /** An admitted call sees fewer than the limit in its window, so with it
      the window ending at its second holds at most the limit. */
  lemma LastAdmittedBounded(log: seq<int>, times: seq<int>, cfg: Config)
    requires times != [] && Replay(log, times, cfg).0[|times| - 1]
    ensures AdmittedIn(times, Replay(log, times, cfg).0, times[|times| - 1] - WindowSeconds, times[|times| - 1])
              <= cfg.maxRequests
  {
    var n := |times|;
    var t := times[n - 1];
    var adm := Replay(log, times, cfg).0;
    var prev := Replay(log, times[..n - 1], cfg);
    assert adm[..n - 1] == prev.0;
    assert CheckLog(prev.1, t, cfg).Admitted();
    ReplayLogsAdmissions(log, times[..n - 1], cfg, t - WindowSeconds, t);
    assert AdmittedIn(times, adm, t - WindowSeconds, t)
        == AdmittedIn(times[..n - 1], prev.0, t - WindowSeconds, t) + 1;
  }

  /** The promise of a sliding window: for calls made in time order, no
      window of sixty seconds (both ends included) holds more admitted calls
      than the limit. */
  lemma {:induction false} WindowBounded(log: seq<int>, times: seq<int>, cfg: Config, start: int)
    requires cfg.maxRequests >= 0
    requires forall i, j :: 0 <= i <= j < |times| ==> times[i] <= times[j]
    ensures AdmittedIn(times, Replay(log, times, cfg).0, start, start + WindowSeconds) <= cfg.maxRequests
  {
    if times != [] {
      var n := |times|;
      var t := times[n - 1];
      var adm := Replay(log, times, cfg).0;
      var prev := Replay(log, times[..n - 1], cfg);
      assert adm[..n - 1] == prev.0;
      if adm[n - 1] && start <= t <= start + WindowSeconds {
        LastAdmittedBounded(log, times, cfg);
        assert forall i :: 0 <= i < n ==> times[i] <= t;
        AdmittedInWithin(times, adm, start, start + WindowSeconds, t - WindowSeconds, t);
      } else {
        assert AdmittedIn(times, adm, start, start + WindowSeconds)
            == AdmittedIn(times[..n - 1], prev.0, start, start + WindowSeconds);
        WindowBounded(log, times[..n - 1], cfg, start);
      }
    }
  }
}

=== FILE: handler.dfy ===
/**
 The API route on top of the check: it answers 429 when the check leaves no
 requests remaining and 200 otherwise, copies limit, remaining and reset into
 the x-ratelimit-* headers, and on 200 reports one fewer remaining request in
 the body, counting the request being served. A failing store call is not
 caught, so the route fails. The decision is generic over how a key's entries
 are stored, and is given for the source's sorted set and for the counted log.
 */
module Handler {
  import opened RateLimiter
  import opened Scores
  import Counted
  import Keyed

  /** The x-ratelimit-limit, x-ratelimit-remaining and x-ratelimit-reset headers. */
  datatype Headers = Headers(limit: int, remaining: int, reset: int)

  /** The JSON body; the reset second is kept as a number where the source
      formats it as a local time of day. */
  datatype Body =
    | Served(ip: string, limit: int, remaining: int)
    | TooManyRequests(ip: string, message: string, penalty: int, resetAt: int)

  datatype Response = Reply(status: int, headers: Headers, body: Body) | Failed

  /** The response to one check's outcome. */
  function Respond<S>(ip: string, r: Outcome<S>, cfg: Config): (resp: Response)
  {
    match r
    case StoreError => Failed
    case Decided(v, _) =>
      var headers := Headers(v.limit, v.remaining, v.reset);
      if v.remaining == 0 then
        Reply(429, headers, TooManyRequests(ip, "Too Many Requests", cfg.delay, v.reset))
      else
        Reply(200, headers, Served(ip, v.limit, v.remaining - 1))
  }

  /** One request from `ip` at second `now` against the source's store; the
      key is the digest of the address. */
  ghost function Handle<K>(st: map<K, set<int>>, digest: string -> K, ip: string, now: int, cfg: Config)
    : (res: (Response, map<K, set<int>>))
    ensures cfg.maxRequests > 0 ==> res.0.Reply?
    ensures res.0.Reply? ==>
              (res.0.status == 429 <==> Count(Keyed.Lookup(st, digest(ip), {}), now) >= cfg.maxRequests)
    ensures res.0.Reply? ==> res.0.status == 200 || res.0.status == 429
    ensures res.0.Reply? && res.0.status == 200 ==>
              && res.0.body.Served?
              && res.0.body.remaining == cfg.maxRequests - Count(Keyed.Lookup(st, digest(ip), {}), now) - 1
              && 0 <= res.0.body.remaining < cfg.maxRequests
    ensures res.0.Reply? && res.0.status == 429 ==>
              && res.0.headers.remaining == 0
              && res.0.body.TooManyRequests?
              && res.0.body.message == "Too Many Requests"
              && res.0.body.penalty == cfg.delay
              && res.0.body.resetAt == res.0.headers.reset
    ensures res.0.Reply? ==> res.0.headers.limit == cfg.maxRequests && res.0.body.ip == ip
    ensures res.0.Reply? && res.0.status == 200 ==>
              && res.0.body.Served?
              && res.0.body.limit == cfg.maxRequests
              && res.0.headers.remaining == res.0.body.remaining + 1
              && res.0.headers.reset == now
    ensures res.0.Reply? ==> res.0.headers.reset in Keyed.Lookup(res.1, digest(ip), {})
    ensures Keyed.Lookup(st, digest(ip), {}) <= Keyed.Lookup(res.1, digest(ip), {})
    ensures res.0.Reply? ==>
              Keyed.Lookup(res.1, digest(ip), {}) - Keyed.Lookup(st, digest(ip), {}) <= {res.0.headers.reset}
    ensures res.0.Reply? && res.0.status == 200 ==>
              Keyed.Lookup(res.1, digest(ip), {}) == Keyed.Lookup(st, digest(ip), {}) + {now}
    ensures res.0.Reply? && res.0.status == 429 ==>
              var before := Keyed.Lookup(st, digest(ip), {});
              && before != {}
              && res.0.headers.reset == (if Top(before) >= now then Top(before) else Top(before) + cfg.delay)
    ensures res.0.Reply? && res.0.status == 429 && cfg.delay >= 0 ==>
              IsTop(Keyed.Lookup(res.1, digest(ip), {}), res.0.headers.reset)
    ensures res.0.Failed? ==> res.1 == st
    ensures res.1.Keys - {digest(ip)} == st.Keys - {digest(ip)}
    ensures forall k :: k in st && k != digest(ip) ==> k in res.1 && res.1[k] == st[k]
  {
    var checked := CheckKey(st, digest(ip), now, cfg);
    (Respond(ip, checked.0, cfg), checked.1)
  }

  /** The same request against the counted log. */
  function HandleCounted<K>(st: map<K, seq<int>>, digest: string -> K, ip: string, now: int, cfg: Config)
    : (res: (Response, map<K, seq<int>>))
    ensures cfg.maxRequests > 0 ==> res.0.Reply?
    ensures res.0.Reply? ==>
              (res.0.status == 429 <==>
                 Counted.CountLog(Keyed.Lookup(st, digest(ip), []), now - WindowSeconds, now) >= cfg.maxRequests)
    ensures res.0.Reply? ==> res.0.status == 200 || res.0.status == 429
    ensures res.0.Reply? && res.0.status == 200 ==>
              && res.0.body.Served?
              && res.0.body.remaining
                   == cfg.maxRequests - Counted.CountLog(Keyed.Lookup(st, digest(ip), []), now - WindowSeconds, now) - 1
              && 0 <= res.0.body.remaining < cfg.maxRequests
    ensures res.0.Reply? && res.0.status == 429 ==>
              && res.0.headers.remaining == 0
              && res.0.body.TooManyRequests?
              && res.0.body.message == "Too Many Requests"
              && res.0.body.penalty == cfg.delay
              && res.0.body.resetAt == res.0.headers.reset
    ensures res.0.Reply? ==> res.0.headers.limit == cfg.maxRequests && res.0.body.ip == ip
    ensures res.0.Reply? && res.0.status == 200 ==>
              && res.0.body.Served?
              && res.0.body.limit == cfg.maxRequests
              && res.0.headers.remaining == res.0.body.remaining + 1
              && res.0.headers.reset == now
    ensures res.0.Reply? ==> res.0.headers.reset in Keyed.Lookup(res.1, digest(ip), [])
    ensures res.0.Reply? ==>
              var before := Keyed.Lookup(st, digest(ip), []);
              Keyed.Lookup(res.1, digest(ip), []) in {before, before + [res.0.headers.reset]}
    ensures res.0.Reply? && res.0.status == 200 ==>
              Keyed.Lookup(res.1, digest(ip), []) == Keyed.Lookup(st, digest(ip), []) + [now]
    ensures res.0.Reply? && res.0.status == 429 ==>
              var before := Keyed.Lookup(st, digest(ip), []);
              && before != []
              && res.0.headers.reset
                   == (if Counted.LogTop(before) >= now then Counted.LogTop(before) else Counted.LogTop(before) + cfg.delay)
    ensures res.0.Failed? ==> res.1 == st
    ensures res.1.Keys - {digest(ip)} == st.Keys - {digest(ip)}
    ensures forall k :: k in st && k != digest(ip) ==> k in res.1 && res.1[k] == st[k]
  {
    var checked := Counted.CheckKey(st, digest(ip), now, cfg);
    (Respond(ip, checked.0, cfg), checked.1)
  }
}

=== FILE: keyed.dfy ===
/**
 The store as a whole: one entry collection per key. A key that was never
 written holds the empty collection, as a missing Redis key reads as an
 empty sorted set, and a key is only created or changed by a write that
 changes its entries.
 */
module Keyed {

  /** The entries held under `k`. */
  function Lookup<K, S>(st: map<K, S>, k: K, empty: S): (entries: S)
  {
    if k in st then st[k] else empty
  }

  /** Writes back the entries of `key` after one call and leaves every other
      key alone. */
  function Commit<K, S(==)>(st: map<K, S>, key: K, empty: S, after: S): (st': map<K, S>)
    ensures Lookup(st', key, empty) == after
    ensures st'.Keys - {key} == st.Keys - {key}
    ensures forall k :: k in st && k != key ==> k in st' && st'[k] == st[k]
    ensures after == Lookup(st, key, empty) ==> st' == st
  {
    if after == Lookup(st, key, empty) then st else st[key := after]
  }
}

=== FILE: optional.dfy ===
/** The optional value a store query may return. */
module Optional {

  datatype Option<+T> = None | Some(value: T)

}

=== FILE: ratelimiter.dfy ===
/**
 The sliding-window limiter with an escalating penalty. One check looks at
 the scores held under the caller's key: fewer than the limit in the last
 sixty seconds admits the request and records its second; otherwise the
 highest score decides between an active penalty (it is not in the past:
 reject and change nothing) and a new penalty (it is in the past: reject and
 record it plus the delay). Scores are UNIX seconds.
 */
module RateLimiter {
  import opened Scores
  import Keyed

  /** Length of the sliding window in seconds; a literal in the source. */
  const WindowSeconds: int := 60

  /** MAX_REQUESTS and DELAY, read once from the environment. */
  datatype Config = Config(maxRequests: int, delay: int)

  /** What one check reports: the limit, the requests left in the window
      (zero on a rejection), and the score the caller is told to wait for. */
  datatype Verdict = Verdict(limit: int, remaining: int, reset: int)

  /** The result of one check, with the entries the key holds afterwards; or
      the store refusing the write of a non-numeric penalty score, which the
      source reaches when the window is exhausted but the key holds no
      entries. */
  datatype Outcome<S> = Decided(verdict: Verdict, after: S) | StoreError
  {
    /** The request is served: the handler answers 200. */
    predicate Admitted()
    {
      Decided? && verdict.remaining > 0
    }
  }

  /** How many scores the window ending at `now` holds (both ends included). */
  ghost function Count(s: set<int>, now: int): (n: nat)
  {
    |InRange(s, now - WindowSeconds, now)|
  }

  /** One check against the scores `s` of the caller's key at second `now`. */
  ghost function Check(s: set<int>, now: int, cfg: Config): (r: Outcome<set<int>>)
    ensures r.StoreError? <==> s == {} && cfg.maxRequests <= 0
    ensures r.Decided? ==> r.verdict.limit == cfg.maxRequests && r.verdict.remaining >= 0
    ensures r.Decided? ==> (r.Admitted() <==> Count(s, now) < cfg.maxRequests)
    ensures r.Admitted() ==> r.verdict.remaining <= cfg.maxRequests && r.verdict.reset == now
    ensures r.Decided? ==> s <= r.after && r.after - s <= {r.verdict.reset}
    ensures r.Decided? ==> r.verdict.reset in r.after
  {
    var n := Count(s, now);
    if n < cfg.maxRequests then
      Decided(Verdict(cfg.maxRequests, cfg.maxRequests - n, now), Add(s, now))
    else if s != {} && Top(s) >= now then
      Decided(Verdict(cfg.maxRequests, 0, Top(s)), s)
    else if s != {} then
      var penalty := Top(s) + cfg.delay;
      Decided(Verdict(cfg.maxRequests, 0, penalty), Add(s, penalty))
    else
      StoreError
  }

  /** The check as the source performs it: ZCOUNT over the window, then ZADD
      of `now`, or ZREVRANGE for the highest score and possibly a ZADD of the
      penalty. */
  method CheckRatelimit(s: set<int>, now: int, cfg: Config) returns (r: Outcome<set<int>>)
    ensures r == Check(s, now, cfg)
    ensures Count(s, now) < cfg.maxRequests ==>
              r == Decided(Verdict(cfg.maxRequests, cfg.maxRequests - Count(s, now), now), s + {now})
    ensures Count(s, now) >= cfg.maxRequests && s != {} && Top(s) >= now ==>
              r == Decided(Verdict(cfg.maxRequests, 0, Top(s)), s)
    ensures Count(s, now) >= cfg.maxRequests && s != {} && Top(s) < now ==>
              r == Decided(Verdict(cfg.maxRequests, 0, Top(s) + cfg.delay), s + {Top(s) + cfg.delay})
    ensures Count(s, now) >= cfg.maxRequests && s == {} ==> r == StoreError
  {
    var n := CountInRange(s, now - WindowSeconds, now);
    if n < cfg.maxRequests {
      return Decided(Verdict(cfg.maxRequests, cfg.maxRequests - n, now), Add(s, now));
    }
    var top := MaxScore(s);
    if top.Some? && top.value >= now {
      return Decided(Verdict(cfg.maxRequests, 0, top.value), s);
    }
    if top.None? {
      return StoreError;
    }
    var penalty := top.value + cfg.delay;
    r := Decided(Verdict(cfg.maxRequests, 0, penalty), Add(s, penalty));
  }

  /** With a positive limit an exhausted window always holds a score, so the
      highest score exists, lies inside the window or later, and the store
      error path cannot be reached. */
  lemma TopExistsWhenExhausted(s: set<int>, now: int, cfg: Config)
    requires cfg.maxRequests > 0 && Count(s, now) >= cfg.maxRequests
    ensures s != {} && Top(s) >= now - WindowSeconds
    ensures Check(s, now, cfg).Decided?
  {
    TopAboveRange(s, now - WindowSeconds, now);
  }

  /** A rejection is not compounded: while the window stays exhausted, calling
      again at any second up to the reset returns the same verdict and writes
      nothing. This holds for an active penalty whatever the delay; a new
      penalty needs a delay that is not negative, else it lands below the
      highest score. */
  lemma PenaltyHolds(s: set<int>, now: int, later: int, cfg: Config)
    requires Check(s, now, cfg).Decided? && !Check(s, now, cfg).Admitted()
    requires cfg.delay >= 0 || Check(s, now, cfg).verdict.reset >= now
    requires later <= Check(s, now, cfg).verdict.reset
    requires Count(Check(s, now, cfg).after, later) >= cfg.maxRequests
    ensures Check(Check(s, now, cfg).after, later, cfg) == Check(s, now, cfg)
  {
    var r := Check(s, now, cfg);
    assert s != {};
    if Top(s) < now {
      TopAdd(s, Top(s) + cfg.delay);
    }
    assert Top(r.after) == r.verdict.reset;
  }

  /** The same, at the very second of the rejection: the count cannot have
      dropped, and with a positive limit and a delay of at least the window
      length the new penalty is not in the past, so a repeated call is
      answered identically. */
  lemma RejectionRepeats(s: set<int>, now: int, cfg: Config)
    requires cfg.maxRequests > 0 && cfg.delay >= WindowSeconds
    requires !Check(s, now, cfg).Admitted()
    ensures Check(Check(s, now, cfg).after, now, cfg) == Check(s, now, cfg)
  {
    var r := Check(s, now, cfg);
    TopExistsWhenExhausted(s, now, cfg);
    InRangeGrows(s, r.after, now - WindowSeconds, now);
    PenaltyHolds(s, now, now, cfg);
  }

  /** One check against the whole store: only the caller's key is read or
      written; it loses no score and gains at most one, and the reported
      reset is one of its scores. */
  ghost function CheckKey<K>(st: map<K, set<int>>, key: K, now: int, cfg: Config)
    : (res: (Outcome<set<int>>, map<K, set<int>>))
    ensures res.0 == Check(Keyed.Lookup(st, key, {}), now, cfg)
    ensures res.1.Keys - {key} == st.Keys - {key}
    ensures forall k :: k in st && k != key ==> k in res.1 && res.1[k] == st[k]
    ensures Keyed.Lookup(st, key, {}) <= Keyed.Lookup(res.1, key, {})
    ensures |Keyed.Lookup(res.1, key, {})| <= |Keyed.Lookup(st, key, {})| + 1
    ensures res.0.Decided? ==> res.0.verdict.reset in Keyed.Lookup(res.1, key, {})
    ensures res.0.Decided? ==> Keyed.Lookup(res.1, key, {}) == res.0.after
    ensures res.0.StoreError? ==> res.1 == st
  {
    var before := Keyed.Lookup(st, key, {});
    var r := Check(before, now, cfg);
    if r.Decided? then (r, Keyed.Commit(st, key, {}, r.after)) else (r, st)
  }

  /** Calls at the seconds `times`, in order, against the scores `s`: which
      were admitted, and the scores held afterwards. */
  ghost function Replay(s: set<int>, times: seq<int>, cfg: Config): (res: (seq<bool>, set<int>))
    ensures |res.0| == |times|
    decreases |times|
  {
    if times == [] then ([], s)
    else
      var prev := Replay(s, times[..|times| - 1], cfg);
      var r := Check(prev.1, times[|times| - 1], cfg);
      (prev.0 + [r.Admitted()], if r.Decided? then r.after else prev.1)
  }

  /** How many calls of a trace were admitted at a second in [lo, hi]. */
  function AdmittedIn(times: seq<int>, admitted: seq<bool>, lo: int, hi: int): (n: nat)
    requires |times| == |admitted|
    decreases |times|
  {
    if times == [] then 0
    else
      var last := |times| - 1;
      AdmittedIn(times[..last], admitted[..last], lo, hi)
        + (if admitted[last] && lo <= times[last] <= hi then 1 else 0)
  }

  /** Admissions in the same second are one score, so from an empty key
      every call of a same-second burst is admitted once the limit is at
      least two. */
  lemma {:induction false} SameSecondBurst(now: int, n: nat, cfg: Config)
    requires cfg.maxRequests >= 2
    ensures Replay({}, seq(n, _ => now), cfg).0 == seq(n, _ => true)
    ensures Replay({}, seq(n, _ => now), cfg).1 <= {now}
  {
    if n > 0 {
      var times := seq(n, _ => now);
      assert times[..n - 1] == seq(n - 1, _ => now);
      SameSecondBurst(now, n - 1, cfg);
      var prev := Replay({}, times[..n - 1], cfg).1;
      if now in prev {
        assert prev == {now};
        assert InRange(prev, now - WindowSeconds, now) == {now};
      } else {
        assert prev == {};
        assert InRange(prev, now - WindowSeconds, now) == {};
      }
    }
  }

  /** A trace all of whose calls were admitted inside [lo, hi] counts every call. */
  lemma {:induction false} AllAdmittedCounted(times: seq<int>, lo: int, hi: int)
    requires forall i :: 0 <= i < |times| ==> lo <= times[i] <= hi
    ensures AdmittedIn(times, seq(|times|, _ => true), lo, hi) == |times|
  {
    if times != [] {
      var n := |times|;
      assert seq(n, _ => true)[..n - 1] == seq(n - 1, _ => true);
      AllAdmittedCounted(times[..n - 1], lo, hi);
    }
  }

  /** With a limit of at least two, the window does not bound requests: a
      burst of one more than the limit within one second is admitted in full.
      (With a limit of one, the second call finds its own second as the top
      entry and is rejected.) */
  lemma BurstExceedsLimit(now: int, cfg: Config)
    requires cfg.maxRequests >= 2
    ensures var times := seq(cfg.maxRequests + 1, _ => now);
            AdmittedIn(times, Replay({}, times, cfg).0, now - WindowSeconds, now) == cfg.maxRequests + 1
  {
    var times := seq(cfg.maxRequests + 1, _ => now);
    SameSecondBurst(now, cfg.maxRequests + 1, cfg);
    AllAdmittedCounted(times, now - WindowSeconds, now);
  }

  /** With a limit of one a same-second repeat is limited: the admitted
      second is itself the top entry, so the repeat meets an active penalty. */
  lemma SameSecondLimitOne(now: int, delay: int)
    ensures Check({now}, now, Config(1, delay)) == Decided(Verdict(1, 0, now), {now})
  {
    assert InRange({now}, now - WindowSeconds, now) == {now};
    assert IsTop({now}, now);
    TopUnique({now}, now, Top({now}));
  }

  /** A run with a limit of two and a delay of sixty: two admissions, a new
      penalty at the top score plus the delay, the same penalty repeated, and
      an admission before the penalty second once the window has drained. */
  lemma PenaltyScenario()
    ensures var cfg := Config(2, 60);
      && Check({}, 0, cfg) == Decided(Verdict(2, 2, 0), {0})
      && Check({0}, 10, cfg) == Decided(Verdict(2, 1, 10), {0, 10})
      && Check({0, 10}, 20, cfg) == Decided(Verdict(2, 0, 70), {0, 10, 70})
      && Check({0, 10, 70}, 50, cfg) == Decided(Verdict(2, 0, 70), {0, 10, 70})
      && Check({0, 10, 70}, 65, cfg) == Decided(Verdict(2, 1, 65), {0, 10, 65, 70})
  {
    ScenarioAdmits();
    ScenarioNewPenalty();
    ScenarioActivePenalty();
    ScenarioDrainedWindow();
  }

  lemma ScenarioAdmits()
    ensures Check({}, 0, Config(2, 60)) == Decided(Verdict(2, 2, 0), {0})
    ensures Check({0}, 10, Config(2, 60)) == Decided(Verdict(2, 1, 10), {0, 10})
  {
    assert InRange({}, -60, 0) == {};
    assert InRange({0}, -50, 10) == {0};
    assert Count({0}, 10) == 1;
    assert Add({0}, 10) == {0, 10};
  }

  lemma ScenarioNewPenalty()
    ensures Check({0, 10}, 20, Config(2, 60)) == Decided(Verdict(2, 0, 70), {0, 10, 70})
  {
    assert InRange({0, 10}, -40, 20) == {0, 10};
    assert IsTop({0, 10}, 10);
    TopUnique({0, 10}, 10, Top({0, 10}));
    assert Count({0, 10}, 20) == 2;
    assert Add({0, 10}, 70) == {0, 10, 70};
  }

  lemma ScenarioActivePenalty()
    ensures Check({0, 10, 70}, 50, Config(2, 60)) == Decided(Verdict(2, 0, 70), {0, 10, 70})
  {
    assert InRange({0, 10, 70}, -10, 50) == {0, 10};
    assert IsTop({0, 10, 70}, 70);
    TopUnique({0, 10, 70}, 70, Top({0, 10, 70}));
  }

  lemma ScenarioDrainedWindow()
    ensures Check({0, 10, 70}, 65, Config(2, 60)) == Decided(Verdict(2, 1, 65), {0, 10, 65, 70})
  {
    assert InRange({0, 10, 70}, 5, 65) == {10};
    assert Count({0, 10, 70}, 65) == 1;
    assert Add({0, 10, 70}, 65) == {0, 10, 65, 70};
  }
}

=== FILE: scores.dfy ===
/**
 The sorted set the rate limiter keeps under one key. Every entry is added
 with its timestamp as both member and score, so two entries with the same
 score are the same entry and the sorted set is just a finite set of
 integer scores. This module gives the three queries the limiter makes of it:
 counting the scores in a closed range, reading the highest score, and adding
 a score.
 */
module Scores {
  import opened Optional

  /** The scores of `s` in the closed range [lo, hi]. */
  function InRange(s: set<int>, lo: int, hi: int): (w: set<int>)
  {
    set x | x in s && lo <= x <= hi
  }

  /** Some element of a non-empty set. */
  ghost function Pick<T>(s: set<T>): (x: T)
    requires s != {}
    ensures x in s
  {
    var x :| x in s; x
  }

  /** Some element of a non-empty set, chosen by the implementation. */
  method Choose<T>(s: set<T>) returns (x: T)
    requires s != {}
    ensures x in s
  {
    x :| x in s;
  }

  /** `t` is the highest score of `s`. */
  ghost predicate IsTop(s: set<int>, t: int)
  {
    t in s && forall x :: x in s ==> x <= t
  }

  /** The highest score of a non-empty set. */
  ghost function Top(s: set<int>): (t: int)
    requires s != {}
    ensures IsTop(s, t)
    decreases |s|
  {
    var x := Pick(s);
    if s == {x} then x
    else
      var t' := Top(s - {x});
      assert forall y :: y in s ==> y == x || y in s - {x};
      if x < t' then t' else x
  }

  lemma TopUnique(s: set<int>, a: int, b: int)
    requires IsTop(s, a) && IsTop(s, b)
    ensures a == b
  {
  }

  /** Counting with ZCOUNT: the number of scores in the closed range [lo, hi]. */
  method CountInRange(s: set<int>, lo: int, hi: int) returns (n: nat)
    ensures n == |InRange(s, lo, hi)|
  {
    var rest := s;
    n := 0;
    while rest != {}
      invariant rest <= s
      invariant n == |InRange(s - rest, lo, hi)|
      decreases |rest|
    {
      var x := Choose(rest);
      var seen := InRange(s - rest, lo, hi);
      assert x !in seen;
      if lo <= x <= hi {
        assert InRange(s - (rest - {x}), lo, hi) == seen + {x};
        n := n + 1;
      } else {
        assert InRange(s - (rest - {x}), lo, hi) == seen;
      }
      rest := rest - {x};
    }
    assert s - rest == s;
  }

  /** Reading the first entry of ZREVRANGE 0 0: the highest score, or nothing
      when the key holds no entries. */
  method MaxScore(s: set<int>) returns (top: Option<int>)
    ensures top.None? <==> s == {}
    ensures top.Some? ==> top.value == Top(s)
  {
    if s == {} {
      return None;
    }
    var best := Choose(s);
    var rest := s - {best};
    while rest != {}
      invariant rest <= s
      invariant best in s && best !in rest
      invariant forall x :: x in s && x !in rest ==> x <= best
      decreases |rest|
    {
      var x := Choose(rest);
      if best < x {
        best := x;
      }
      rest := rest - {x};
    }
    TopUnique(s, best, Top(s));
    top := Some(best);
  }

  /** Adding with ZADD, member and score both `x`: a score already present
      leaves the set as it was. */
  function Add(s: set<int>, x: int): (r: set<int>)
    ensures x in r && s <= r
    ensures r - s == (if x in s then {} else {x})
    ensures x in s <==> r == s
  {
    s + {x}
  }

  /** Adding a score moves the top only when the new score is above it. */
  lemma TopAdd(s: set<int>, x: int)
    ensures Top(Add(s, x)) == if s == {} || Top(s) < x then x else Top(s)
  {
    var t := if s == {} || Top(s) < x then x else Top(s);
    assert IsTop(Add(s, x), t);
    TopUnique(Add(s, x), t, Top(Add(s, x)));
  }

  /** Counting over a larger set never gives a smaller number. */
  lemma InRangeGrows(s: set<int>, s': set<int>, lo: int, hi: int)
    requires s <= s'
    ensures |InRange(s, lo, hi)| <= |InRange(s', lo, hi)|
  {
    var a, b := InRange(s, lo, hi), InRange(s', lo, hi);
    assert b == a + (b - a);
    assert a * (b - a) == {};
  }

  /** A range that holds some score bounds the top score from below. */
  lemma TopAboveRange(s: set<int>, lo: int, hi: int)
    requires |InRange(s, lo, hi)| > 0
    ensures s != {} && Top(s) >= lo
  {
    var x :| x in InRange(s, lo, hi);
    assert x in s;
  }
}
